=== FILE: README.md ===
# Page-repair scripts, modelled in Dafny

The repository ships a small static web page (`index.html`) and five one-shot
maintenance scripts. Each script reads the page, rewrites its text to remove
a stray closing brace or a duplicated `subscribeNewsletter` form handler, and
writes it back. This project models the text transformation of each script
as a pure function or method from page content to page content, and proves
what each one keeps, what it drops, and where the scripts do not do what their
comments say.

Modules:

- `Text` (`text.dfy`): the JavaScript string operations the scripts use.
  - `trim` strips the ECMAScript WhiteSpace and LineTerminator characters.
  - `indexOf` clamps its start position.
  - `substring` clamps its arguments and swaps them when they are out of order.
  - `split('\n')` always gives at least one piece.
  - `join('\n')`.
  - The round trips `Join(Split(s)) == s` and `Split(Join(ls)) == ls` are proved, the second for pieces without a separator.
- `Sequences` (`sequences.dfy`): order-preserving selection of list elements.
  - `Select` keeps the elements a mask marks.
  - `RemoveAll` drops every copy of one element.
  - `Flatten` concatenates.
  - `IsSubsequence` is the ordering relation.
- `FixLine` (`fix_line_js.dfy`): `fix-line.js`, an exact-match line filter.
- `FixLinePy` (`fix_line_py.dfy`): `fix-line.py`, the same filter on `readlines()` elements that keep their `'\n'`.
- `FixSyntax` (`fix_syntax.dfy`): `fix-syntax.js`, which drops a nine-character brace line that follows another brace line.
- `FixDuplicate` (`fix_duplicate.dfy`): `fix-duplicate.js`, a two-variable state machine that skips a duplicated handler.
  - The loop body's two tests on each line are computed up front into a `LineKind`.
  - The state machine's lemmas are stated over any sequence of kinds.
- `FixAll` (`fix_all.dfy`): `fix-all.js`, which cuts one region between two marker strings out of the raw page when the end marker is found. Without the end marker the page is still rewritten, and when the start marker lies past position 42 it grows (see ## Findings).

Reading and writing `index.html` is left out. A script is modelled as the
function from the content it reads to the content it writes.

## Model

| member | source | states |
|---|---|---|
| Text.TrimStart | fix-syntax.js:13 | the result is a suffix of the input, everything cut off is JavaScript whitespace, and the result does not start with whitespace |
| Text.TrimEnd | fix-syntax.js:13 | the result is a prefix of the input, everything cut off is whitespace, and the result does not end with whitespace |
| Text.TrimAround | fix-duplicate.js:27 | trimming a core that does not start or end with whitespace, surrounded by whitespace, gives exactly that core |
| Text.IndexOfFrom | fix-all.js:8-9 | the result is -1 exactly when the pattern does not occur at or after the start; otherwise it is the first occurrence at or after the start |
| Text.IncludesIndexOf | fix-duplicate.js:16-18 | `s.includes(pat)` holds exactly when `s.indexOf(pat, 0)` is not -1 |
| Text.IndexOfSpec | fix-all.js:8-9 | `indexOf` with an in-range start returns -1 if and only if there is no occurrence from there on, and returns the first occurrence otherwise |
| Text.SubstringFrom | fix-all.js:13 | `substring(a)` is the suffix from `a` clamped into the string |
| Text.Split | fix-line.js:7 | `split('\n')` yields one more piece than there are newlines, and no piece contains a newline |
| Text.JoinSplit | fix-line.js:7-13 | joining the pieces of a split with the same separator gives back the original string |
| Text.SplitJoin | fix-line.js:13 | splitting a join of at least one separator-free piece gives back the pieces |
| Text.SplitPiecesAreClean | fix-syntax.js:7 | a split has at least one piece and no piece contains the separator |
| Sequences.SubsequenceElements | fix-line.js:10 | a subsequence is no longer than the list it comes from and holds only its elements |
| Sequences.Select | fix-syntax.js:10-21 | the selection has one element per set mask bit and is a subsequence of the input |
| Sequences.SelectPosition | fix-syntax.js:20 | a kept element lands in the output at the index given by the number of kept elements before it |
| Sequences.SelectAll | fix-duplicate.js:37 | keeping every element returns the list unchanged |
| Sequences.SelectDroppedTail | fix-duplicate.js:26-34 | when nothing from position t onward is kept, the selection equals the selection of the first t elements |
| Sequences.SelectDroppedRange | fix-syntax.js:15-17 | dropping a range of positions leaves the selection of the prefix unchanged across that range |
| Sequences.KeepUnlessCount | fix-line.js:10 | the filter's mask keeps as many positions as there are elements other than the removed one |
| Sequences.RemoveAll | fix-line.js:10 | the result has no copy of the removed element and is a subsequence of the input |
| Sequences.RemoveAllCounts | fix-line.py:6-11 | the result's multiset is the input's with that element's count set to zero, so the length drops by exactly that count |
| Sequences.RemoveAllIsSelect | fix-line.js:10 | removing every copy of x equals selecting with the mask "element differs from x" |
| Sequences.RemoveAllKeeps | fix-line.js:10 | any element different from the removed one survives |
| Sequences.RemoveAllIdempotent | fix-line.js:10 | removing twice is the same as removing once |
| Sequences.FlattenRemoveAllLength | fix-line.py:15 | the written text loses the removed element's length once per removed copy |
| FixLine.OutputLines | fix-line.js:7-13 | the written page's lines are exactly the kept lines, or a single empty line when every line was removed |
| FixLine.NoTargetLine | fix-line.js:10 | no line of the written page is eight spaces and '}' |
| FixLine.KeepsOtherLines | fix-line.js:10 | the kept lines are a subsequence of the page's lines, every other line survives, and one line is lost per target line |
| FixLine.LineCount | fix-line.js:7-13 | when some line survives, the written page has the old line count minus the number of target lines |
| FixLine.CarriageReturnLineTrimsToBrace | fix-line.js:10 | the target line followed by a carriage return trims to '}' |
| FixLine.CarriageReturnLineKept | fix-line.js:10 | that line is not removed, because the comparison is exact |
| FixLine.OtherIndentKept | fix-line.js:10 | a brace line with any whitespace indent other than eight spaces (eight tabs, say) trims to '}' and is kept |
| FixLine.NoMatchUnchanged | fix-line.js:7-13 | a page without the target line is written back byte for byte |
| FixLine.Idempotent | fix-line.js:7-13 | running the script on its own output changes nothing |
| FixLinePy.FilterLines | fix-line.py:6-11 | the loop's output is the reference removal of every element equal to eight spaces, '}' and '\n' (`RemoveAll`), so no such element is left and the rest keep their order |
| FixLinePy.KeepsOtherLines | fix-line.py:8-11 | every element other than the target survives, and the list shrinks by exactly the number of target elements |
| FixLinePy.CharacterCount | fix-line.py:9-15 | the written page is ten characters shorter per skipped element |
| FixLinePy.UnterminatedLastLineKept | fix-line.py:9 | a brace line at the end of the page without a trailing newline is not skipped |
| FixLinePy.Idempotent | fix-line.py:6-11 | filtering the filtered list changes nothing |
| FixLinePy.KeepsReadLinesShape | fix-line.py:6-15 | if every input element is a line and all but the last end in '\n', the filtered list has the same shape |
| FixSyntax.FilterLines | fix-syntax.js:10-21 | the loop's output is the selection of the lines the script's drop condition spares, which by `Select`'s contract is an order-preserving subsequence of the input lines |
| FixSyntax.UnaffectedLinesKept | fix-syntax.js:13-15 | the first line always survives, and so does every line that is not nine characters long or does not trim to '}' |
| FixSyntax.Apply | fix-syntax.js:7-24 | the written page's lines are exactly the selected lines |
| FixSyntax.FirstLineSurvives | fix-syntax.js:15 | the written page starts with the same line as the page read |
| FixSyntax.DroppedExactly | fix-syntax.js:13-20 | line i is dropped if and only if the condition holds, and a line that is not dropped appears in the output right after the lines kept before it |
| FixSyntax.RunCollapses | fix-syntax.js:13-15 | the lookback reads the original lines; a run of nine-character brace lines leaves at most its first line, every later line of the run being dropped |
| FixSyntax.DroppedAfterBrace | fix-syntax.js:13-15 | a nine-character line that trims to '}' is dropped whenever the line before it trims to '}', so the first line of a run goes too when the line before the run trims to '}' |
| FixSyntax.FirstLineNeverDropped | fix-syntax.js:15 | the lookback needs a previous line, so line 0 is never dropped |
| FixSyntax.BraceLineTrimsToBrace | fix-syntax.js:13 | eight spaces and '}' trim to '}', so the target line meets the first test |
| FixSyntax.ThreeBracesLeaveOne | fix-syntax.js:10-21 | three copies in a row of a nine-character line that trims to '}', such as the target line, become one |
| FixDuplicate.FilterLines | fix-duplicate.js:8-38 | the loop's output is the selection of the lines the state machine reaches `push` with, which by `Select`'s contract is an order-preserving subsequence of the input lines |
| FixDuplicate.Apply | fix-duplicate.js:7-41 | the written page's lines are exactly the kept lines |
| FixDuplicate.FirstLineWritten | fix-duplicate.js:18 | the first line of the page is always written back first |
| FixDuplicate.NoTriggerKeepsAll | fix-duplicate.js:16-37 | without a trigger line every line is kept |
| FixDuplicate.NoTriggerUnchanged | fix-duplicate.js:7-41 | a page without a trigger line is written back unchanged |
| FixDuplicate.FirstLineKept | fix-duplicate.js:18 | line 0 cannot be a trigger, because the test needs i > 0, so it is kept |
| FixDuplicate.NeverSkipsWithoutTrigger | fix-duplicate.js:9-10 | before the first trigger the state stays at its initial value and every line is kept |
| FixDuplicate.CountInvariant | fix-duplicate.js:28-31 | while skipping, at most one closing line has been counted, and the count never exceeds two |
| FixDuplicate.TriggerDroppedAndResets | fix-duplicate.js:16-23 | a trigger line is never written, and after it the scan is skipping with count 0, even when it was already skipping |
| FixDuplicate.SkipModeStep | fix-duplicate.js:26-34 | while skipping, every non-trigger line is dropped; a closing line adds one to the count, and skipping ends exactly at the second closing line |
| FixDuplicate.OutsideSkipKept | fix-duplicate.js:37 | outside skip mode a non-trigger line is written, right after the lines kept before it |
| FixDuplicate.LastTriggerBefore | fix-duplicate.js:16-23 | the result is -1 or a trigger position, with no trigger after it below k |
| FixDuplicate.SkipStartedAtTrigger | fix-duplicate.js:19-34 | a skip that is on at position k began at the most recent trigger and has stayed on since |
| FixDuplicate.EndsSkipping | fix-duplicate.js:26-34 | a page that ends while skipping loses everything from its last trigger on |
| FixDuplicate.PreviousLineStays | fix-duplicate.js:21-22 | the line before a trigger is written although the comment says it is skipped |
| FixDuplicate.BraceThenTrigger | fix-duplicate.js:16-18 | on the page "}" followed by a line with both lookups, line 1 is a trigger and line 0 is not |
| FixDuplicate.BraceBeforeTriggerStays | fix-duplicate.js:16-22 | the page "}" followed by a trigger line is written back as "}" |
| FixDuplicate.IntendedDropsPreviousLine | fix-duplicate.js:21 | under the corrected mask the trigger and the line before it are both dropped, and every other line fares as in the script |
| FixDuplicate.IntendedBraceBeforeTriggerDropped | fix-duplicate.js:21 | the corrected script writes back nothing for the page "}" followed by a trigger line: the brace goes with the trigger |
| FixAll.EndIndexNeverMinusOne | fix-all.js:9-11 | the computed end index is always at least 42, so the guard's end test never fails |
| FixAll.StartAbsentUnchanged | fix-all.js:8-11 | without the start marker the page is written back unchanged |
| FixAll.CutsFirstRegion | fix-all.js:8-13 | with both markers present the page loses exactly the region from the first start marker to the end of the first end marker after it; the region starts and ends with the markers, and everything else is kept |
| FixAll.CutBounds | fix-all.js:8-13 | the cut is made at the first start marker and the first end marker after it |
| FixAll.MissingEndMarkerStillCuts | fix-all.js:9-13 | with the start marker at p but no end marker after it, the page is written as content[..p] + content[min(42, length)..]: this cuts content[p..42) when p < 42, and when p > 42 it duplicates content[42..p) and the page grows by p - 42 |
| FixAll.LoneStartMarkerErased | fix-all.js:9-13 | a page that is just the start marker is written back empty |
| FixAll.IntendedCutsOnlyClosedRegions | fix-all.js:9-11 | the corrected script leaves a page without a closing end marker alone, and otherwise does what the script does |
| FixAll.IntendedNeverGrows | fix-all.js:11-13 | the corrected script never makes the page longer |

## Left out

- `app.js`, the HTTP backend (Express routes, Mongoose models, bcrypt and JWT), is not part of this model: its handlers are presence and equality checks wrapped around library calls whose code is not available.
- File reading and writing (`readFileSync`, `writeFileSync`, `open`, `writelines` to disk) and the console messages: a script is modelled as the function from the content read to the content written.
- Python's `readlines()` is not modelled as a function. `FixLinePy` takes its result as a given list. `IsReadLinesResult` states the shape that list has, and `KeepsReadLinesShape` shows that filtering preserves it. Universal-newline translation on reading is left out too, because it happens in the I/O layer.
- JavaScript strings are UTF-16 code-unit sequences, and `string` here is a sequence of Dafny `char`s (Unicode scalar values). For `length === 9` in `fix-syntax.js` the two agree, because a line that trims to '}' holds only Basic Multilingual Plane characters. They differ at `content.substring(42)` in `fix-all.js:13`, on the path without an end marker: JavaScript cuts after 42 UTF-16 code units, `FixAll.MissingEndMarkerStillCuts` after 42 `char`s, so the written page differs when a character outside the Basic Multilingual Plane lies in the page's first 42 code units.
- `Text.IsWhitespace` lists the space separators (Unicode category Zs) as of current Unicode. A different engine's Unicode version could differ in that category.
- Text.Substring: carries no contract of its own. Its clamping is used through `FixAll`, whose lemmas state the resulting page. The swap of out-of-order arguments is modelled, but no script reaches it: `FixAll` calls it only with `0 <= startIndex`.
- Text.Trim: carries no contract of its own. It is `TrimEnd` after `TrimStart`, whose contracts fix both halves, and `TrimAround` states what it gives for a whitespace-wrapped core.
- Text.Join: carries no contract of its own. `JoinSplit` and `SplitJoin` state it as the inverse of `Split`.
- FixLine.Apply: carries no contract of its own (fix-line.js:7-13). `OutputLines`, `NoTargetLine`, `KeepsOtherLines`, `LineCount`, `NoMatchUnchanged` and `Idempotent` state what it writes.
- FixSyntax.Dropped: carries no contract of its own (fix-syntax.js:13-15). `DroppedExactly` ties it to the output, and `FirstLineNeverDropped`, `UnaffectedLinesKept`, `DroppedAfterBrace` and `RunCollapses` state its consequences.
- FixSyntax.TrimsToBrace: carries no contract of its own (the `trim() === '}'` test at fix-syntax.js:13 and 15). `Text.TrimAround` states what it accepts, and `BraceLineTrimsToBrace` applies it to the target line.
- FixSyntax.IsBraceLine: carries no contract of its own. It joins the two tests of fix-syntax.js:13 for one line, and `RunCollapses` uses it to describe a run.
- FixSyntax.KeepMask: carries no contract of its own (which lines reach the push at fix-syntax.js:20). `DroppedExactly`, `UnaffectedLinesKept`, `FirstLineNeverDropped` and `DroppedAfterBrace` state it position by position, and `FilterLines` ties it to the loop.
- Text.Includes: carries no contract of its own (`includes` at fix-duplicate.js:16-18). `IncludesIndexOf` ties it to `indexOf`, and `FixDuplicate.BraceThenTrigger` applies it to the trigger line.
- Text.IndexOf: carries no contract of its own (`indexOf` at fix-all.js:8-9). `IndexOfSpec` states its result for every start, and `FixAll.CutBounds` applies it to the two markers.
- FixDuplicate.IsTrigger: carries no contract of its own (the test at fix-duplicate.js:16-18). `BraceThenTrigger` evaluates it on a concrete page, and `FirstLineKept` and `TriggerDroppedAndResets` state what a trigger does.
- FixDuplicate.ClosesBlock: carries no contract of its own (the test at fix-duplicate.js:27). `Text.TrimAround` states which lines trim to '}' or '};', and `SkipModeStep` states what a closing line does while skipping.
- FixDuplicate.Classify: carries no contract beyond keeping the line count. It records `IsTrigger` and `ClosesBlock` for every line.
- FixDuplicate.Emitted: carries no contract of its own (which lines reach the push at fix-duplicate.js:37). `OutsideSkipKept`, `NeverSkipsWithoutTrigger` and `SkipModeStep` state when it holds.
- FixDuplicate.Kept: carries no contract of its own (the lines fix-duplicate.js writes back). `FilterLines` and `Apply` tie it to the script, and `FirstLineWritten`, `NoTriggerKeepsAll`, `EndsSkipping` and `BraceBeforeTriggerStays` state what it holds.
- FixDuplicate.KeepMaskIntended: carries no contract beyond its length. It is the corrected mask, and `IntendedDropsPreviousLine` relates it to `KeepMask`.
- FixDuplicate.KeptIntended: carries no contract of its own. It is the corrected fix-duplicate.js, and `IntendedDropsPreviousLine` and `IntendedBraceBeforeTriggerDropped` state what it writes.
- FixLinePy.Written: carries no contract of its own (the page `writelines` produces at fix-line.py:14-15). `CharacterCount` states its length after the filter.
- FixDuplicate.Step: carries no contract of its own (fix-duplicate.js:16-34, one iteration's effect on the two variables). `TriggerDroppedAndResets` and `SkipModeStep` state what it does.
- FixDuplicate.StateBefore: carries no contract of its own (the state at the head of each iteration). `FilterLines` uses it as its loop invariant, and `CountInvariant`, `NeverSkipsWithoutTrigger` and `SkipStartedAtTrigger` state its properties.
- FixAll.Apply: carries no contract of its own (fix-all.js:8-13). `CutsFirstRegion`, `StartAbsentUnchanged`, `MissingEndMarkerStillCuts` and `EndIndexNeverMinusOne` state what it writes.
- FixAll.ApplyIntended: carries no contract of its own. It is the corrected fix-all.js, and `IntendedCutsOnlyClosedRegions` and `IntendedNeverGrows` state what it writes.

## Findings

| source | as written | input that shows it | evidently intended | confidence | as-written member | corrected member |
|---|---|---|---|---|---|---|
| fix-all.js:9-11 | `endIndex` is the `indexOf` result plus the end marker's length (43), so it is at least 42 and the test `endIndex !== -1` always passes | a page consisting of the start marker alone, `"            event.preventDefault();"`, is written back as the empty page; a page with the start marker at p > 42 and no end marker grows by p - 42, because content[42..p) is written twice | cut only when the end marker is found: test the `indexOf` result before adding the length | high, not executed | FixAll.MissingEndMarkerStillCuts, FixAll.LoneStartMarkerErased | FixAll.ApplyIntended, FixAll.IntendedCutsOnlyClosedRegions, FixAll.IntendedNeverGrows |
| fix-duplicate.js:21-22 | the comment says the trigger line and the previous closing brace are skipped, but the previous line was already pushed in the iteration before, so only the trigger line is skipped | the lines `["}", "event.preventDefault();const email = event.target.querySelector"]` are written back as `["}"]` | drop the line before the trigger together with the trigger | medium, not executed | FixDuplicate.BraceBeforeTriggerStays, FixDuplicate.PreviousLineStays | FixDuplicate.KeptIntended, FixDuplicate.IntendedDropsPreviousLine, FixDuplicate.IntendedBraceBeforeTriggerDropped |

=== FILE: fix_all.dfy ===
/**
 fix-all.js: find the first start marker (the indented `preventDefault`
 call) and the first end marker (the indented `reset` call and the closing
 brace after it) at or after it, and cut the page from the start marker to
 the end of the end marker.
 */
module FixAll {
  import opened Text

  const StartMarker: string := "            event.preventDefault();"
  const EndMarker: string := "            event.target.reset();\n        }"

  /** The page the script writes back. The end position is computed as the
      `indexOf` result plus the marker length before the guard looks at it. */
  function Apply(content: string): string {
    var startIndex := IndexOf(content, StartMarker, 0);
    var endIndex := IndexOf(content, EndMarker, startIndex) + |EndMarker|;
    if startIndex != -1 && endIndex != -1 then
      Substring(content, 0, startIndex) + SubstringFrom(content, endIndex)
    else
      content
  }

  /** The end test can never fail: `indexOf` returns at least -1, and the
      marker length lifts that to 42. */
  lemma EndIndexNeverMinusOne(content: string)
    ensures |StartMarker| == 35 && |EndMarker| == 43
    ensures var startIndex := IndexOf(content, StartMarker, 0);
            IndexOf(content, EndMarker, startIndex) + |EndMarker| >= 42
  {
  }

  /** Without the start marker the page is written back unchanged. */
  lemma StartAbsentUnchanged(content: string)
    requires forall k :: !OccursAt(content, StartMarker, k)
    ensures Apply(content) == content
  {
    IndexOfSpec(content, StartMarker, 0, 0);
  }

  /** With both markers present the script removes exactly one region: from
      the first start marker `p` to the end of the first end marker `e` at or
      after it. That region starts with the start marker and ends with the
      end marker, and everything outside it, later markers included, is kept
      verbatim. */
  lemma CutsFirstRegion(content: string, p: nat, e: nat)
    requires FirstAt(content, StartMarker, 0, p)
    requires FirstAt(content, EndMarker, p, e)
    ensures p < e + |EndMarker| <= |content|
    ensures Apply(content) == content[..p] + content[e + |EndMarker|..]
    ensures content[p..e + |EndMarker|][..|StartMarker|] == StartMarker
    ensures content[p..e + |EndMarker|][e - p..] == EndMarker
    ensures |Apply(content)| == |content| - (e + |EndMarker| - p)
  {
    CutBounds(content, p, e);
    var seg := content[p..e + |EndMarker|];
    assert seg[..|StartMarker|] == content[p..p + |StartMarker|];
    assert seg[e - p..] == content[e..e + |EndMarker|];
  }

  /** The two `indexOf` calls find `p` and `e`, so the cut is at them. */
  lemma CutBounds(content: string, p: nat, e: nat)
    requires FirstAt(content, StartMarker, 0, p)
    requires FirstAt(content, EndMarker, p, e)
    ensures p < e + |EndMarker| <= |content|
    ensures Apply(content) == content[..p] + content[e + |EndMarker|..]
  {
    IndexOfSpec(content, StartMarker, 0, p);
    IndexOfSpec(content, EndMarker, p, e);
  }

  /** With the start marker at `p` but no end marker after it, the page is
      still rewritten, as `content[..p] + content[min(42, |content|)..]`.
      When `p < 42` this cuts `content[p..42)`; when `p > 42` it writes
      `content[42..p)` twice, and the page grows by `p - 42`. */
  lemma MissingEndMarkerStillCuts(content: string, p: nat)
    requires FirstAt(content, StartMarker, 0, p)
    requires forall j :: p <= j ==> !OccursAt(content, EndMarker, j)
    ensures Apply(content) == content[..p] + content[Clamp(42, |content|)..]
    ensures p > 42 ==> |Apply(content)| == |content| + (p - 42)
  {
    IndexOfSpec(content, StartMarker, 0, p);
    IndexOfSpec(content, EndMarker, p, p);
  }

  /** The smallest page that shows it: the start marker alone is cut away
      although nothing closes it. */
  lemma LoneStartMarkerErased()
    ensures Apply(StartMarker) == ""
  {
    assert OccursAt(StartMarker, StartMarker, 0);
    assert FirstAt(StartMarker, StartMarker, 0, 0);
    MissingEndMarkerStillCuts(StartMarker, 0);
  }

  /** What the guard was meant to test: the end marker's `indexOf` result
      itself, before the length is added. */
  function ApplyIntended(content: string): string {
    var startIndex := IndexOf(content, StartMarker, 0);
    var endFound := IndexOf(content, EndMarker, startIndex);
    if startIndex != -1 && endFound != -1 then
      Substring(content, 0, startIndex) + SubstringFrom(content, endFound + |EndMarker|)
    else
      content
  }

  /** The intended script leaves a page without a closing end marker
      alone, and otherwise does what the script does. */
  lemma IntendedCutsOnlyClosedRegions(content: string, p: nat)
    requires FirstAt(content, StartMarker, 0, p)
    ensures (forall j :: p <= j ==> !OccursAt(content, EndMarker, j)) ==> ApplyIntended(content) == content
    ensures (exists j :: p <= j && OccursAt(content, EndMarker, j)) ==> ApplyIntended(content) == Apply(content)
  {
    IndexOfSpec(content, StartMarker, 0, p);
    IndexOfSpec(content, EndMarker, p, p);
  }

  /** The intended script never makes the page longer. */
  lemma IntendedNeverGrows(content: string)
    ensures |ApplyIntended(content)| <= |content|
  {
    var startIndex := IndexOf(content, StartMarker, 0);
    if startIndex != -1 {
      var endFound := IndexOf(content, EndMarker, startIndex);
      if endFound != -1 {
        assert startIndex <= endFound + |EndMarker| <= |content|;
      }
    }
  }
}

=== FILE: fix_duplicate.dfy ===
/**
 fix-duplicate.js: split the page on '\n' and walk the lines with two pieces
 of state, a skip flag and a count of closing braces. A trigger line (the
 first line of the duplicated form handler) switches skipping on; while
 skipping, every line is dropped and lines that trim to '}' or '};' are
 counted; the second one ends the skip. The kept lines are joined back with
 '\n'.
 */
module FixDuplicate {
  import opened Text
  import opened Sequences

  const PreventDefault: string := "event.preventDefault();"
  const EmailLookup: string := "const email = event.target.querySelector"

  /** The loop state at the head of an iteration: `inDuplicateFunction`
      and `functionEndCount`. */
  datatype ScanState = ScanState(inDuplicateFunction: bool, functionEndCount: nat)

  const Initial: ScanState := ScanState(false, 0)

  /** Line `i` opens the duplicated handler: it calls `preventDefault` and
      looks up the email field, and the line before it (in the original
      page) contains a '}'. */
  predicate IsTrigger(lines: seq<string>, i: nat)
    requires i < |lines|
  {
    Includes(lines[i], PreventDefault) && Includes(lines[i], EmailLookup)
    && i > 0 && Includes(lines[i - 1], "}")
  }

  /** A line the skip mode counts as the end of a block. */
  predicate ClosesBlock(line: string) {
    Trim(line) == "}" || Trim(line) == "};"
  }

  /** What the loop body looks at in line `i`, computed up front. */
  datatype LineKind = LineKind(trigger: bool, closesBlock: bool)

  function Classify(lines: seq<string>): (kinds: seq<LineKind>)
    ensures |kinds| == |lines|
  {
    seq(|lines|, i requires 0 <= i < |lines| => LineKind(IsTrigger(lines, i), ClosesBlock(lines[i])))
  }

  /** What one iteration does to the state. */
  function Step(kind: LineKind, st: ScanState): ScanState {
    if kind.trigger then ScanState(true, 0)
    else if st.inDuplicateFunction && kind.closesBlock then
      var count := st.functionEndCount + 1;
      ScanState(count < 2, count)
    else st
  }

  /** The state at the head of iteration `i`. */
  function StateBefore(kinds: seq<LineKind>, i: nat): ScanState
    requires i <= |kinds|
    decreases i
  {
    if i == 0 then Initial else Step(kinds[i - 1], StateBefore(kinds, i - 1))
  }

  /** Line `i` reaches `newLines.push`: it is no trigger and the scan is not
      skipping when it gets there. */
  predicate Emitted(kinds: seq<LineKind>, i: nat)
    requires i < |kinds|
  {
    !kinds[i].trigger && !StateBefore(kinds, i).inDuplicateFunction
  }

  function KeepMask(kinds: seq<LineKind>): (keep: seq<bool>)
    ensures |keep| == |kinds|
  {
    seq(|kinds|, i requires 0 <= i < |kinds| => Emitted(kinds, i))
  }

  /** The lines the script writes back. */
  function Kept(lines: seq<string>): seq<string> {
    Select(lines, KeepMask(Classify(lines)))
  }

  /** The script's loop over the line array. What the result keeps is
      stated by the lemmas below. */
  method FilterLines(lines: seq<string>) returns (newLines: seq<string>)
    ensures newLines == Kept(lines)
  {
    ghost var kinds := Classify(lines);
    ghost var keep := KeepMask(kinds);
    newLines := [];
    var inDuplicateFunction := false;
    var functionEndCount: nat := 0;
    for i := 0 to |lines|
      invariant ScanState(inDuplicateFunction, functionEndCount) == StateBefore(kinds, i)
      invariant inDuplicateFunction ==> functionEndCount <= 1
      invariant newLines == Select(lines[..i], keep[..i])
    {
      SelectPrefixStep(lines, keep, i);
      assert kinds[i] == LineKind(IsTrigger(lines, i), ClosesBlock(lines[i]));
      var line := lines[i];
      if Includes(line, PreventDefault) && Includes(line, EmailLookup)
         && i > 0 && Includes(lines[i - 1], "}")
      {
        inDuplicateFunction := true;
        functionEndCount := 0;
        continue;
      }
      if inDuplicateFunction {
        if Trim(line) == "}" || Trim(line) == "};" {
          functionEndCount := functionEndCount + 1;
          if functionEndCount >= 2 {
            inDuplicateFunction := false;
          }
        }
        continue;
      }
      newLines := newLines + [line];
    }
    assert lines[..|lines|] == lines && keep[..|lines|] == keep;
  }

  /** The whole script: split, filter, join. The lines of the written page
      are exactly the kept ones. */
  method Apply(content: string) returns (newContent: string)
    ensures Split(newContent, '\n') == Kept(Split(content, '\n'))
  {
    var lines := Split(content, '\n');
    var newLines := FilterLines(lines);
    newContent := Join(newLines, '\n');
    FirstLineWritten(lines);
    SubsequenceElements(newLines, lines);
    SplitJoin(newLines, '\n');
  }

  /** The first line of the page is always written back first. */
  lemma FirstLineWritten(lines: seq<string>)
    ensures |lines| > 0 ==> |Kept(lines)| > 0 && Kept(lines)[0] == lines[0]
  {
    if |lines| > 0 {
      FirstLineKept(lines);
      SelectFirst(lines, KeepMask(Classify(lines)));
    }
  }

  /** Without a trigger line every line is written back. */
  lemma NoTriggerKeepsAll(lines: seq<string>)
    requires forall i :: 0 <= i < |lines| ==> !IsTrigger(lines, i)
    ensures Kept(lines) == lines
  {
    var kinds := Classify(lines);
    forall i | 0 <= i < |kinds|
      ensures !kinds[i].trigger
    {
      assert kinds[i].trigger == IsTrigger(lines, i);
    }
    NeverSkipsWithoutTrigger(kinds, |kinds|);
    SelectAll(lines, KeepMask(kinds));
  }

  /** A page without a trigger line, written as `Apply` promises, is
      written back unchanged. */
  lemma NoTriggerUnchanged(content: string, newContent: string)
    requires Split(newContent, '\n') == Kept(Split(content, '\n'))
    requires var lines := Split(content, '\n');
             forall i :: 0 <= i < |lines| ==> !IsTrigger(lines, i)
    ensures newContent == content
  {
    NoTriggerKeepsAll(Split(content, '\n'));
    JoinSplit(content, '\n');
    JoinSplit(newContent, '\n');
  }

  /** The first line is never a trigger, so it is always written back. */
  lemma FirstLineKept(lines: seq<string>)
    requires |lines| > 0
    ensures KeepMask(Classify(lines))[0]
  {
    assert Classify(lines)[0].trigger == IsTrigger(lines, 0);
  }

  /** Before the first trigger the scan never skips. */
  lemma {:induction false} NeverSkipsWithoutTrigger(kinds: seq<LineKind>, k: nat)
    requires k <= |kinds|
    requires forall i :: 0 <= i < k ==> !kinds[i].trigger
    ensures StateBefore(kinds, k) == Initial
    ensures forall i :: 0 <= i < k ==> KeepMask(kinds)[i]
    decreases k
  {
    if k > 0 {
      NeverSkipsWithoutTrigger(kinds, k - 1);
    }
  }

  /** The loop invariant of the script: while skipping, at most one closing
      line has been counted, and the count never passes two. */
  lemma {:induction false} CountInvariant(kinds: seq<LineKind>, i: nat)
    requires i <= |kinds|
    ensures StateBefore(kinds, i).inDuplicateFunction ==> StateBefore(kinds, i).functionEndCount <= 1
    ensures StateBefore(kinds, i).functionEndCount <= 2
    decreases i
  {
    if i > 0 {
      CountInvariant(kinds, i - 1);
    }
  }

  /** A trigger line is always dropped and always restarts the skip with a
      count of 0, even when the scan was already skipping. */
  lemma TriggerDroppedAndResets(kinds: seq<LineKind>, i: nat)
    requires i < |kinds| && kinds[i].trigger
    ensures !KeepMask(kinds)[i]
    ensures StateBefore(kinds, i + 1) == ScanState(true, 0)
  {
  }

  /** While skipping, every other line is dropped; a closing line adds one
      to the count, and the second closing line ends the skip. */
  lemma SkipModeStep(kinds: seq<LineKind>, i: nat)
    requires i < |kinds| && !kinds[i].trigger
    requires StateBefore(kinds, i).inDuplicateFunction
    ensures !KeepMask(kinds)[i]
    ensures var before, after := StateBefore(kinds, i), StateBefore(kinds, i + 1);
            && after.functionEndCount == before.functionEndCount + (if kinds[i].closesBlock then 1 else 0)
            && (after.inDuplicateFunction <==> !(kinds[i].closesBlock && before.functionEndCount == 1))
  {
    CountInvariant(kinds, i);
  }

  /** Outside the skip, a line that is no trigger is kept, and it is
      written right after the lines kept before it. */
  lemma OutsideSkipKept(lines: seq<string>, i: nat)
    requires i < |lines| && !IsTrigger(lines, i)
    requires !StateBefore(Classify(lines), i).inDuplicateFunction
    ensures var keep := KeepMask(Classify(lines));
            CountTrue(keep[..i]) < |Kept(lines)| && Kept(lines)[CountTrue(keep[..i])] == lines[i]
  {
    var keep := KeepMask(Classify(lines));
    assert Classify(lines)[i].trigger == IsTrigger(lines, i);
    assert keep[i];
    SelectPosition(lines, keep, i);
  }

  /** The most recent trigger before position `k`, or -1 if none. */
  function LastTriggerBefore(kinds: seq<LineKind>, k: nat): (t: int)
    requires k <= |kinds|
    ensures -1 <= t < k
    ensures t >= 0 ==> kinds[t].trigger
    ensures forall j :: t < j < k ==> !kinds[j].trigger
    decreases k
  {
    if k == 0 then -1
    else if kinds[k - 1].trigger then k - 1
    else LastTriggerBefore(kinds, k - 1)
  }

  /** A skip that is on at position `k` began at the most recent trigger
      and has been on ever since. */
  lemma {:induction false} SkipStartedAtTrigger(kinds: seq<LineKind>, k: nat)
    requires k <= |kinds| && StateBefore(kinds, k).inDuplicateFunction
    ensures LastTriggerBefore(kinds, k) >= 0
    ensures forall j :: LastTriggerBefore(kinds, k) < j <= k ==> StateBefore(kinds, j).inDuplicateFunction
    decreases k
  {
    if !kinds[k - 1].trigger {
      SkipStartedAtTrigger(kinds, k - 1);
    }
  }

  /** A page that ends in the middle of a skip loses everything from the
      last trigger on: what is written is what the lines before that
      trigger produce. */
  lemma EndsSkipping<T>(xs: seq<T>, kinds: seq<LineKind>)
    requires |xs| == |kinds| && StateBefore(kinds, |kinds|).inDuplicateFunction
    ensures var t := LastTriggerBefore(kinds, |kinds|);
            && 0 <= t < |kinds| && kinds[t].trigger
            && Select(xs, KeepMask(kinds)) == Select(xs[..t], KeepMask(kinds)[..t])
  {
    var keep := KeepMask(kinds);
    SkipStartedAtTrigger(kinds, |kinds|);
    var t := LastTriggerBefore(kinds, |kinds|);
    forall j | t <= j < |kinds|
      ensures !keep[j]
    {
      if j > t {
        assert StateBefore(kinds, j).inDuplicateFunction;
      }
    }
    SelectDroppedTail(xs, keep, t);
  }

  /** Despite the comment at the trigger, the line before it is not
      removed: it was pushed in the previous iteration. */
  lemma PreviousLineStays(kinds: seq<LineKind>, i: nat)
    requires 0 < i < |kinds| && kinds[i].trigger
    requires !kinds[i - 1].trigger && !StateBefore(kinds, i - 1).inDuplicateFunction
    ensures KeepMask(kinds)[i - 1] && !KeepMask(kinds)[i]
  {
  }

  /** The smallest page that shows it: a closing brace followed by a
      trigger line. Line 1 is a trigger and line 0 is not. */
  lemma BraceThenTrigger()
    ensures var kinds := Classify(["}", PreventDefault + EmailLookup]);
            !kinds[0].trigger && kinds[1].trigger
  {
    var lines := ["}", PreventDefault + EmailLookup];
    assert OccursAt(lines[1], PreventDefault, 0);
    assert lines[1][|PreventDefault|..|PreventDefault| + |EmailLookup|] == EmailLookup;
    assert OccursAt(lines[1], EmailLookup, |PreventDefault|);
    assert OccursAt(lines[0], "}", 0);
    assert IsTrigger(lines, 1);
    var kinds := Classify(lines);
    assert kinds[0].trigger == IsTrigger(lines, 0);
    assert kinds[1].trigger == IsTrigger(lines, 1);
  }

  /** On that page the script writes the brace back. */
  lemma BraceBeforeTriggerStays()
    ensures Kept(["}", PreventDefault + EmailLookup]) == ["}"]
  {
    var lines := ["}", PreventDefault + EmailLookup];
    BraceThenTrigger();
    var keep := KeepMask(Classify(lines));
    assert keep[0] && !keep[1];
    SelectStep(lines, keep);
    SelectStep(lines[..1], keep[..1]);
  }

  /** What the comment at the trigger describes: the line before a trigger
      goes with it. */
  function KeepMaskIntended(kinds: seq<LineKind>): (keep: seq<bool>)
    ensures |keep| == |kinds|
  {
    seq(|kinds|, i requires 0 <= i < |kinds| =>
      Emitted(kinds, i) && !(i + 1 < |kinds| && kinds[i + 1].trigger))
  }

  /** Under the intended mask both the trigger and the line before it are
      dropped, and every other line fares as in the script. */
  lemma IntendedDropsPreviousLine(kinds: seq<LineKind>, i: nat)
    requires i < |kinds|
    ensures kinds[i].trigger && i > 0 ==> !KeepMaskIntended(kinds)[i - 1] && !KeepMaskIntended(kinds)[i]
    ensures !(i + 1 < |kinds| && kinds[i + 1].trigger) ==> KeepMaskIntended(kinds)[i] == KeepMask(kinds)[i]
  {
  }

  /** The lines the intended script writes back. */
  function KeptIntended(lines: seq<string>): seq<string> {
    Select(lines, KeepMaskIntended(Classify(lines)))
  }

  /** On the page of `BraceBeforeTriggerStays` the intended script writes
      nothing back: the brace goes with the trigger. */
  lemma IntendedBraceBeforeTriggerDropped()
    ensures KeptIntended(["}", PreventDefault + EmailLookup]) == []
  {
    var lines := ["}", PreventDefault + EmailLookup];
    BraceThenTrigger();
    var keep := KeepMaskIntended(Classify(lines));
    assert !keep[0] && !keep[1];
    SelectStep(lines, keep);
    SelectStep(lines[..1], keep[..1]);
  }
}

=== FILE: fix_line_js.dfy ===
/**
 fix-line.js: split the page on '\n', drop every line that is exactly eight
 spaces followed by '}', and join the rest back with '\n'.
 */
module FixLine {
  import opened Text
  import opened Sequences

  /** The one line the script removes: eight spaces and a closing brace. */
  const Target: string := "        }"

  /** The page content the script writes back for a given page content. */
  function Apply(content: string): string {
    Join(RemoveAll(Split(content, '\n'), Target), '\n')
  }

  /** The lines of the written page. A page whose every line was removed
      becomes `""`, whose only line is empty. */
  lemma OutputLines(content: string)
    ensures var kept := RemoveAll(Split(content, '\n'), Target);
            Split(Apply(content), '\n') == if |kept| == 0 then [""] else kept
  {
    var kept := RemoveAll(Split(content, '\n'), Target);
    if |kept| > 0 {
      SubsequenceElements(kept, Split(content, '\n'));
      SplitJoin(kept, '\n');
    }
  }

  /** No line of the written page is the target line. */
  lemma NoTargetLine(content: string)
    ensures Target !in Split(Apply(content), '\n')
  {
    OutputLines(content);
  }

  /** Every other line of the page is kept, the kept lines keep their
      relative order, and each copy of the target removes exactly one line. */
  lemma KeepsOtherLines(content: string)
    ensures var lines := Split(content, '\n');
            var kept := RemoveAll(lines, Target);
            && IsSubsequence(kept, lines)
            && (forall l :: l in lines && l != Target ==> l in kept)
            && |kept| == |lines| - multiset(lines)[Target]
  {
    var lines := Split(content, '\n');
    RemoveAllCounts(lines, Target);
    forall l | l in lines && l != Target
      ensures l in RemoveAll(lines, Target)
    {
      RemoveAllKeeps(lines, Target, l);
    }
  }

  /** When the page has lines left, its line count is the old count minus
      the number of target lines. */
  lemma LineCount(content: string)
    requires RemoveAll(Split(content, '\n'), Target) != []
    ensures |Split(Apply(content), '\n')|
         == |Split(content, '\n')| - multiset(Split(content, '\n'))[Target]
  {
    OutputLines(content);
    RemoveAllCounts(Split(content, '\n'), Target);
  }

  /** The target line with a trailing carriage return, as a page with
      CRLF line ends has it, trims to '}' like the target. */
  lemma CarriageReturnLineTrimsToBrace()
    ensures Trim("        }\r") == "}"
  {
    TrimAround("        ", "}", "\r");
    assert "        " + "}" + "\r" == "        }\r";
  }

  /** The comparison is exact, so that line stays. */
  lemma CarriageReturnLineKept(lines: seq<string>)
    requires "        }\r" in lines
    ensures "        }\r" in RemoveAll(lines, Target)
  {
    assert |"        }\r"| != |Target|;
    RemoveAllKeeps(lines, Target, "        }\r");
  }

  /** Likewise a brace after any other whitespace indent stays, eight tabs
      included. */
  lemma OtherIndentKept(lines: seq<string>, indent: string)
    requires AllWhitespace(indent) && indent != "        "
    requires indent + "}" in lines
    ensures Trim(indent + "}") == "}"
    ensures indent + "}" in RemoveAll(lines, Target)
  {
    TrimAround(indent, "}", "");
    assert indent + "}" == indent + "}" + "";
    if |indent| == 8 {
      assert (indent + "}")[..8] == indent;
      assert Target[..8] == "        ";
    }
    assert indent + "}" != Target;
    RemoveAllKeeps(lines, Target, indent + "}");
  }

  /** A page without the target line is written back unchanged. */
  lemma NoMatchUnchanged(content: string)
    requires Target !in Split(content, '\n')
    ensures Apply(content) == content
  {
    RemoveAllAbsent(Split(content, '\n'), Target);
    JoinSplit(content, '\n');
  }

  /** Running the script a second time changes nothing. */
  lemma Idempotent(content: string)
    ensures Apply(Apply(content)) == Apply(content)
  {
    NoTargetLine(content);
    NoMatchUnchanged(Apply(content));
  }
}

=== FILE: fix_line_py.dfy ===
/**
 fix-line.py: read the page as a list of lines (each keeping its '\n'),
 drop every element equal to eight spaces, '}' and '\n', and write the rest
 back one after another.
 */
module FixLinePy {
  import opened Sequences

  /** The element the script skips; the comparison includes the newline. */
  const Target: string := "        }\n"

  /** One element of a `readlines()` result: non-empty, with a newline at
      most as its last character. */
  predicate IsLine(line: string) {
    |line| > 0 && '\n' !in line[..|line| - 1]
  }

  predicate EndsWithNewline(line: string) {
    |line| > 0 && line[|line| - 1] == '\n'
  }

  /** The shape of a `readlines()` result: every element but possibly the
      last ends in a newline. */
  predicate IsReadLinesResult(lines: seq<string>) {
    && (forall line :: line in lines ==> IsLine(line))
    && (forall i :: 0 <= i < |lines| - 1 ==> EndsWithNewline(lines[i]))
  }

  /** The page `writelines` produces from a list of lines. */
  function Written(lines: seq<string>): string {
    Flatten(lines)
  }

  /** The script's loop: skip the target element, append every other one.
      `RemoveAll`'s contract says no target is left and the rest keep their
      order; `KeepsOtherLines` says every other element survives. */
  method FilterLines(lines: seq<string>) returns (newLines: seq<string>)
    ensures newLines == RemoveAll(lines, Target)
  {
    newLines := [];
    for i := 0 to |lines|
      invariant newLines == RemoveAll(lines[..i], Target)
    {
      RemoveAllStep(lines[..i + 1], Target);
      assert lines[..i + 1][..i] == lines[..i];
      if lines[i] == Target {
        continue;
      }
      newLines := newLines + [lines[i]];
    }
    assert lines[..|lines|] == lines;
  }

  /** Every other element survives, and the list shrinks by exactly the
      number of target elements. */
  lemma KeepsOtherLines(lines: seq<string>)
    ensures forall line :: line in lines && line != Target ==> line in RemoveAll(lines, Target)
    ensures |RemoveAll(lines, Target)| == |lines| - multiset(lines)[Target]
  {
    RemoveAllCounts(lines, Target);
    forall line | line in lines && line != Target
      ensures line in RemoveAll(lines, Target)
    {
      RemoveAllKeeps(lines, Target, line);
    }
  }

  /** Each skipped element takes exactly ten characters out of the page. */
  lemma CharacterCount(lines: seq<string>)
    ensures |Written(RemoveAll(lines, Target))| == |Written(lines)| - 10 * multiset(lines)[Target]
  {
    FlattenRemoveAllLength(lines, Target);
  }

  /** A closing brace on the last line, with no newline after it, is not
      the target and survives. */
  lemma UnterminatedLastLineKept(lines: seq<string>)
    requires |lines| > 0 && lines[|lines| - 1] == "        }"
    ensures var kept := RemoveAll(lines, Target);
            |kept| > 0 && kept[|kept| - 1] == "        }"
  {
    RemoveAllStep(lines, Target);
  }

  /** Filtering the filtered list removes nothing more. */
  lemma Idempotent(lines: seq<string>)
    ensures RemoveAll(RemoveAll(lines, Target), Target) == RemoveAll(lines, Target)
  {
    RemoveAllIdempotent(lines, Target);
  }

  /** The filtered list still has the shape of a `readlines()` result:
      every kept element but the last ends in a newline. */
  lemma {:induction false} KeepsReadLinesShape(lines: seq<string>)
    requires IsReadLinesResult(lines)
    ensures IsReadLinesResult(RemoveAll(lines, Target))
    decreases |lines|
  {
    var kept := RemoveAll(lines, Target);
    SubsequenceElements(kept, lines);
    if |lines| > 0 {
      var lines' := lines[..|lines| - 1];
      var kept' := RemoveAll(lines', Target);
      assert forall line :: line in lines' ==> line in lines;
      KeepsReadLinesShape(lines');
      RemoveAllStep(lines, Target);
      SubsequenceElements(kept', lines');
      forall line | line in kept'
        ensures EndsWithNewline(line)
      {
        var j :| 0 <= j < |lines'| && lines'[j] == line;
        assert lines[j] == line;
      }
      if kept != kept' {
        assert kept == kept' + [lines[|lines| - 1]];
        forall i | 0 <= i < |kept| - 1
          ensures EndsWithNewline(kept[i])
        {
          assert kept[i] == kept'[i];
          assert kept'[i] in kept';
        }
      } else {
        forall i | 0 <= i < |kept| - 1
          ensures EndsWithNewline(kept[i])
        {
          assert kept[i] in kept';
        }
      }
    }
  }
}

=== FILE: fix_syntax.dfy ===
/**
 fix-syntax.js: split the page on '\n' and drop each nine-character line
 that trims to '}' when the line before it in the ORIGINAL page also trims
 to '}'; join the rest back with '\n'.
 */
module FixSyntax {
  import opened Text
  import opened Sequences

  predicate TrimsToBrace(line: string) {
    Trim(line) == "}"
  }

  /** The script's removal condition for line `i`: a nine-character line
      that trims to '}', not the first line, after a line that trims to '}'. */
  predicate Dropped(lines: seq<string>, i: nat)
    requires i < |lines|
  {
    TrimsToBrace(lines[i]) && |lines[i]| == 9 && i > 0 && TrimsToBrace(lines[i - 1])
  }

  /** Which lines the script keeps, position by position. */
  function KeepMask(lines: seq<string>): seq<bool> {
    seq(|lines|, i requires 0 <= i < |lines| => !Dropped(lines, i))
  }

  /** The script's loop over the line array. Which lines the result keeps
      is stated by `UnaffectedLinesKept` and `DroppedExactly`. */
  method FilterLines(lines: seq<string>) returns (newLines: seq<string>)
    ensures newLines == Select(lines, KeepMask(lines))
  {
    newLines := [];
    for i := 0 to |lines|
      invariant newLines == Select(lines[..i], KeepMask(lines)[..i])
    {
      SelectPrefixStep(lines, KeepMask(lines), i);
      if Trim(lines[i]) == "}" && |lines[i]| == 9 {
        if i > 0 && Trim(lines[i - 1]) == "}" {
          continue;
        }
      }
      newLines := newLines + [lines[i]];
    }
    assert lines[..|lines|] == lines && KeepMask(lines)[..|lines|] == KeepMask(lines);
  }

  /** The first line always survives, and so does every line that is not
      nine characters long or does not trim to '}'. */
  lemma UnaffectedLinesKept(lines: seq<string>)
    ensures var kept := Select(lines, KeepMask(lines));
            |lines| > 0 ==> |kept| > 0 && kept[0] == lines[0]
    ensures forall line :: line in lines && (|line| != 9 || !TrimsToBrace(line))
                           ==> line in Select(lines, KeepMask(lines))
  {
    if |lines| > 0 {
      SelectFirst(lines, KeepMask(lines));
    }
    forall line | line in lines && (|line| != 9 || !TrimsToBrace(line))
      ensures line in Select(lines, KeepMask(lines))
    {
      var j :| 0 <= j < |lines| && lines[j] == line;
      SelectKeeps(lines, KeepMask(lines), j);
    }
  }

  /** The whole script: split, filter, join. The lines of the written page
      are exactly the kept ones. */
  method Apply(content: string) returns (newContent: string)
    ensures var lines := Split(content, '\n');
            Split(newContent, '\n') == Select(lines, KeepMask(lines))
  {
    var lines := Split(content, '\n');
    var newLines := FilterLines(lines);
    newContent := Join(newLines, '\n');
    UnaffectedLinesKept(lines);
    SubsequenceElements(newLines, lines);
    SplitJoin(newLines, '\n');
  }

  /** A page written as `Apply` promises starts with the same line as the
      page read, since the first line is never dropped. */
  lemma FirstLineSurvives(content: string, newContent: string)
    requires var lines := Split(content, '\n');
             Split(newContent, '\n') == Select(lines, KeepMask(lines))
    ensures Split(newContent, '\n')[0] == Split(content, '\n')[0]
  {
    UnaffectedLinesKept(Split(content, '\n'));
  }

  /** Line `i`'s fate in terms of the output: it is dropped exactly when
      the script's condition holds, and otherwise it is written right after
      the lines kept before it. */
  lemma DroppedExactly(lines: seq<string>, i: nat)
    requires i < |lines|
    ensures var keep := KeepMask(lines);
            Dropped(lines, i)
            <==> |Select(lines[..i + 1], keep[..i + 1])| == |Select(lines[..i], keep[..i])|
    ensures var keep := KeepMask(lines);
            !Dropped(lines, i) ==>
              CountTrue(keep[..i]) < |Select(lines, keep)|
              && Select(lines, keep)[CountTrue(keep[..i])] == lines[i]
  {
    var keep := KeepMask(lines);
    SelectPrefixStep(lines, keep, i);
    if !Dropped(lines, i) {
      SelectPosition(lines, keep, i);
    }
  }

  /** Line `i` is one the script may drop: nine characters that trim to '}'. */
  predicate IsBraceLine(lines: seq<string>, i: nat)
    requires i < |lines|
  {
    |lines[i]| == 9 && TrimsToBrace(lines[i])
  }

  /** In a run of nine-character lines that trim to '}', every line after
      the first is dropped, so the run leaves at most its first line behind. */
  lemma {:induction false} RunCollapses(lines: seq<string>, j: nat, k: nat)
    requires 1 <= k && j + k <= |lines|
    requires forall i :: j <= i < j + k ==> IsBraceLine(lines, i)
    ensures var keep := KeepMask(lines);
            Select(lines[..j + k], keep[..j + k]) == Select(lines[..j + 1], keep[..j + 1])
  {
    var keep := KeepMask(lines);
    RunTailDropped(lines, j, k);
    SelectDroppedRange(lines, keep, j + 1, j + k);
  }

  /** Every line of such a run after its first is dropped. */
  lemma RunTailDropped(lines: seq<string>, j: nat, k: nat)
    requires 1 <= k && j + k <= |lines|
    requires forall i :: j <= i < j + k ==> IsBraceLine(lines, i)
    ensures forall i :: j + 1 <= i < j + k ==> !KeepMask(lines)[i]
  {
    forall i | j + 1 <= i < j + k
      ensures !KeepMask(lines)[i]
    {
      assert IsBraceLine(lines, i) && IsBraceLine(lines, i - 1);
      DroppedAfterBrace(lines, i);
    }
  }

  /** A nine-character brace line after a line that trims to '}' is dropped. */
  lemma DroppedAfterBrace(lines: seq<string>, i: nat)
    requires 0 < i < |lines|
    requires |lines[i]| == 9 && TrimsToBrace(lines[i]) && TrimsToBrace(lines[i - 1])
    ensures !KeepMask(lines)[i]
  {
    assert Dropped(lines, i);
  }

  /** The lookback needs a previous line, so line 0 is never dropped. */
  lemma FirstLineNeverDropped(lines: seq<string>)
    requires |lines| > 0
    ensures KeepMask(lines)[0]
  {
    assert !Dropped(lines, 0);
  }

  /** Eight spaces and a closing brace trim to '}'. */
  lemma BraceLineTrimsToBrace()
    ensures TrimsToBrace("        }")
  {
    TrimAround("        ", "}", "");
    assert "        " + "}" + "" == "        }";
  }

  /** Three copies in a row of a nine-character line that trims to '}',
      such as the target line, leave one behind. */
  lemma ThreeBracesLeaveOne(b: string)
    requires |b| == 9 && TrimsToBrace(b)
    ensures Select([b, b, b], KeepMask([b, b, b])) == [b]
  {
    var lines := [b, b, b];
    RunCollapses(lines, 0, 3);
    var keep := KeepMask(lines);
    assert lines[..3] == lines && keep[..3] == keep;
    FirstLineNeverDropped(lines);
    SelectFirst(lines[..1], keep[..1]);
  }
}

=== FILE: sequences.dfy ===
/**
 Sequence vocabulary shared by the line filters: order-preserving
 subsequences, selection of elements by a keep mask, removal of every copy
 of one value, and concatenation. Everything recurses on the last element,
 the way the scripts build their output by appending.
 */
module Sequences {

  /** `xs` can be obtained from `ys` by deleting elements, keeping the order
      of the rest. */
  predicate IsSubsequence<T(==)>(xs: seq<T>, ys: seq<T>)
    decreases |ys|
  {
    if |ys| == 0 then |xs| == 0
    else
      || IsSubsequence(xs, ys[..|ys| - 1])
      || (|xs| > 0 && xs[|xs| - 1] == ys[|ys| - 1]
          && IsSubsequence(xs[..|xs| - 1], ys[..|ys| - 1]))
  }

  /** A subsequence only holds elements of the sequence it came from, and
      never more of them than there are. */
  lemma {:induction false} SubsequenceElements<T>(xs: seq<T>, ys: seq<T>)
    requires IsSubsequence(xs, ys)
    ensures |xs| <= |ys|
    ensures forall x :: x in xs ==> x in ys
    decreases |ys|
  {
    if |ys| > 0 {
      var ys' := ys[..|ys| - 1];
      assert ys == ys' + [ys[|ys| - 1]];
      if IsSubsequence(xs, ys') {
        SubsequenceElements(xs, ys');
      } else {
        var xs' := xs[..|xs| - 1];
        SubsequenceElements(xs', ys');
        assert xs == xs' + [xs[|xs| - 1]];
      }
    }
  }

  /** The number of `true` entries of a mask. */
  function CountTrue(keep: seq<bool>): (n: nat)
    ensures n <= |keep|
    decreases |keep|
  {
    if |keep| == 0 then 0
    else CountTrue(keep[..|keep| - 1]) + (if keep[|keep| - 1] then 1 else 0)
  }

  /** The elements of `xs` whose position is marked in `keep`, in order:
      what a loop that pushes `xs[i]` exactly when `keep[i]` holds builds. */
  function Select<T>(xs: seq<T>, keep: seq<bool>): (r: seq<T>)
    requires |keep| == |xs|
    ensures |r| == CountTrue(keep)
    ensures IsSubsequence(r, xs)
    decreases |xs|
  {
    if |xs| == 0 then []
    else
      var xs', keep' := xs[..|xs| - 1], keep[..|keep| - 1];
      var r' := Select(xs', keep');
      if keep[|keep| - 1] then
        var r := r' + [xs[|xs| - 1]];
        assert r[..|r| - 1] == r';
        r
      else
        r'
  }

  /** One unfolding of `Select`. */
  lemma SelectStep<T>(xs: seq<T>, keep: seq<bool>)
    requires |keep| == |xs| > 0
    ensures Select(xs, keep)
         == Select(xs[..|xs| - 1], keep[..|keep| - 1]) + (if keep[|keep| - 1] then [xs[|xs| - 1]] else [])
  {
  }

  /** Selecting with the first `i + 1` mask entries extends the selection
      with the first `i` by element `i` when it is marked. */
  lemma SelectPrefixStep<T>(xs: seq<T>, keep: seq<bool>, i: nat)
    requires |keep| == |xs| && i < |xs|
    ensures Select(xs[..i + 1], keep[..i + 1])
         == Select(xs[..i], keep[..i]) + (if keep[i] then [xs[i]] else [])
  {
    assert xs[..i + 1][..i] == xs[..i];
    assert keep[..i + 1][..i] == keep[..i];
  }

  /** Selecting from a prefix gives a prefix of the whole selection. */
  lemma {:induction false} SelectPrefix<T>(xs: seq<T>, keep: seq<bool>, n: nat)
    requires |keep| == |xs| && n <= |xs|
    ensures var p := Select(xs[..n], keep[..n]);
            |p| <= |Select(xs, keep)| && Select(xs, keep)[..|p|] == p
    decreases |xs|
  {
    if n == |xs| {
      assert xs[..n] == xs && keep[..n] == keep;
    } else {
      var xs', keep' := xs[..|xs| - 1], keep[..|keep| - 1];
      SelectPrefix(xs', keep', n);
      assert xs'[..n] == xs[..n] && keep'[..n] == keep[..n];
      SelectStep(xs, keep);
    }
  }

  /** A marked element lands in the selection right after the marked
      elements before it. */
  lemma SelectPosition<T>(xs: seq<T>, keep: seq<bool>, i: nat)
    requires |keep| == |xs| && i < |xs| && keep[i]
    ensures CountTrue(keep[..i]) < |Select(xs, keep)|
    ensures Select(xs, keep)[CountTrue(keep[..i])] == xs[i]
  {
    SelectPrefix(xs, keep, i + 1);
    SelectPrefixStep(xs, keep, i);
  }

  /** A marked element is in the selection. */
  lemma SelectKeeps<T>(xs: seq<T>, keep: seq<bool>, i: nat)
    requires |keep| == |xs| && i < |xs| && keep[i]
    ensures xs[i] in Select(xs, keep)
  {
    SelectPosition(xs, keep, i);
  }

  /** A mask with no `false` entry selects everything. */
  lemma {:induction false} SelectAll<T>(xs: seq<T>, keep: seq<bool>)
    requires |keep| == |xs|
    requires forall i :: 0 <= i < |keep| ==> keep[i]
    ensures Select(xs, keep) == xs
    decreases |xs|
  {
    if |xs| > 0 {
      SelectAll(xs[..|xs| - 1], keep[..|keep| - 1]);
      assert xs == xs[..|xs| - 1] + [xs[|xs| - 1]];
    }
  }

  /** When the first element is marked, it heads the selection. */
  lemma {:induction false} SelectFirst<T>(xs: seq<T>, keep: seq<bool>)
    requires |keep| == |xs| && |xs| > 0 && keep[0]
    ensures |Select(xs, keep)| > 0 && Select(xs, keep)[0] == xs[0]
    decreases |xs|
  {
    if |xs| > 1 {
      var xs', keep' := xs[..|xs| - 1], keep[..|keep| - 1];
      SelectFirst(xs', keep');
      var r := Select(xs, keep);
      assert r == Select(xs', keep') + (if keep[|keep| - 1] then [xs[|xs| - 1]] else []);
    }
  }

  /** When nothing from position `t` on is marked, only the first `t`
      elements matter. */
  lemma {:induction false} SelectDroppedTail<T>(xs: seq<T>, keep: seq<bool>, t: nat)
    requires |keep| == |xs| && t <= |xs|
    requires forall j :: t <= j < |keep| ==> !keep[j]
    ensures Select(xs, keep) == Select(xs[..t], keep[..t])
    decreases |xs|
  {
    if |xs| > t {
      var xs', keep' := xs[..|xs| - 1], keep[..|keep| - 1];
      SelectDroppedTail(xs', keep', t);
      assert xs'[..t] == xs[..t];
      assert keep'[..t] == keep[..t];
    } else {
      assert xs[..t] == xs && keep[..t] == keep;
    }
  }

  /** The same for the selection from the first `n` elements. */
  lemma SelectDroppedRange<T>(xs: seq<T>, keep: seq<bool>, t: nat, n: nat)
    requires |keep| == |xs| && t <= n <= |xs|
    requires forall j :: t <= j < n ==> !keep[j]
    ensures Select(xs[..n], keep[..n]) == Select(xs[..t], keep[..t])
  {
    SelectDroppedTail(xs[..n], keep[..n], t);
    assert xs[..n][..t] == xs[..t];
    assert keep[..n][..t] == keep[..t];
  }

  /** The mask that keeps exactly the elements different from `x`. */
  function KeepUnless<T(==)>(xs: seq<T>, x: T): (keep: seq<bool>)
    ensures |keep| == |xs|
    ensures forall i :: 0 <= i < |xs| ==> (keep[i] <==> xs[i] != x)
  {
    seq(|xs|, i requires 0 <= i < |xs| => xs[i] != x)
  }

  /** `xs.filter(y => y !== x)`: every copy of `x` removed, every other
      element kept, in order. */
  function RemoveAll<T(==)>(xs: seq<T>, x: T): (r: seq<T>)
    ensures x !in r
    ensures IsSubsequence(r, xs)
    decreases |xs|
  {
    if |xs| == 0 then []
    else
      var xs' := xs[..|xs| - 1];
      var last := xs[|xs| - 1];
      var r' := RemoveAll(xs', x);
      if last == x then
        r'
      else
        var r := r' + [last];
        assert r[..|r| - 1] == r';
        r
  }

  /** One unfolding of `RemoveAll`. */
  lemma RemoveAllStep<T>(xs: seq<T>, x: T)
    requires |xs| > 0
    ensures RemoveAll(xs, x)
         == RemoveAll(xs[..|xs| - 1], x) + (if xs[|xs| - 1] == x then [] else [xs[|xs| - 1]])
  {
  }

  /** Removal deletes exactly the copies of `x`: every other element keeps
      its multiplicity, so the length drops by the number of copies. */
  lemma {:induction false} RemoveAllCounts<T>(xs: seq<T>, x: T)
    ensures multiset(RemoveAll(xs, x)) == multiset(xs)[x := 0]
    ensures |RemoveAll(xs, x)| == |xs| - multiset(xs)[x]
    decreases |xs|
  {
    if |xs| > 0 {
      var xs' := xs[..|xs| - 1];
      var last := xs[|xs| - 1];
      RemoveAllCounts(xs', x);
      RemoveAllStep(xs, x);
      assert xs == xs' + [last];
      assert multiset(xs) == multiset(xs') + multiset{last};
    }
  }

  /** Removing copies of `x` is the selection by the mask of elements
      different from `x`. */
  lemma {:induction false} RemoveAllIsSelect<T>(xs: seq<T>, x: T)
    ensures RemoveAll(xs, x) == Select(xs, KeepUnless(xs, x))
    decreases |xs|
  {
    if |xs| > 0 {
      var xs' := xs[..|xs| - 1];
      RemoveAllIsSelect(xs', x);
      var keep := KeepUnless(xs, x);
      assert keep[..|xs| - 1] == KeepUnless(xs', x);
      SelectStep(xs, keep);
      RemoveAllStep(xs, x);
    }
  }

  /** The mask keeps one position per element different from `x`. */
  lemma KeepUnlessCount<T>(xs: seq<T>, x: T)
    ensures CountTrue(KeepUnless(xs, x)) == |xs| - multiset(xs)[x]
  {
    RemoveAllIsSelect(xs, x);
    RemoveAllCounts(xs, x);
  }

  /** Nothing to remove leaves the sequence as it was. */
  lemma {:induction false} RemoveAllAbsent<T>(xs: seq<T>, x: T)
    requires x !in xs
    ensures RemoveAll(xs, x) == xs
    decreases |xs|
  {
    if |xs| > 0 {
      var xs' := xs[..|xs| - 1];
      assert x !in xs' by {
        assert forall y :: y in xs' ==> y in xs;
      }
      RemoveAllAbsent(xs', x);
      assert xs == xs' + [xs[|xs| - 1]];
    }
  }

  /** Removing twice is removing once. */
  lemma RemoveAllIdempotent<T>(xs: seq<T>, x: T)
    ensures RemoveAll(RemoveAll(xs, x), x) == RemoveAll(xs, x)
  {
    RemoveAllAbsent(RemoveAll(xs, x), x);
  }

  /** An element different from `x` survives the removal. */
  lemma RemoveAllKeeps<T>(xs: seq<T>, x: T, y: T)
    requires y in xs && y != x
    ensures y in RemoveAll(xs, x)
  {
    RemoveAllCounts(xs, x);
    assert y in multiset(RemoveAll(xs, x));
  }

  /** Concatenation of all pieces, as `''.join(...)` or `writelines` emits. */
  function Flatten<T>(xss: seq<seq<T>>): seq<T>
    decreases |xss|
  {
    if |xss| == 0 then []
    else Flatten(xss[..|xss| - 1]) + xss[|xss| - 1]
  }

  /** Removing every copy of a piece `x` from a list of pieces shortens the
      concatenation by `|x|` per copy removed. */
  lemma {:induction false} FlattenRemoveAllLength<T>(xss: seq<seq<T>>, x: seq<T>)
    ensures |Flatten(RemoveAll(xss, x))| == |Flatten(xss)| - |x| * multiset(xss)[x]
    decreases |xss|
  {
    if |xss| > 0 {
      var xss' := xss[..|xss| - 1];
      var last := xss[|xss| - 1];
      FlattenRemoveAllLength(xss', x);
      CountStep(xss, x);
      FlattenRemoveAllStep(xss, x);
      var removed := if last == x then 1 else 0;
      assert |Flatten(xss)| == |Flatten(xss')| + |last|;
      MultiplyStep(|x|, multiset(xss')[x], removed);
    }
  }

  /** One step of the length count: the last piece is either dropped or
      appended. */
  lemma FlattenRemoveAllStep<T>(xss: seq<seq<T>>, x: seq<T>)
    requires |xss| > 0
    ensures |Flatten(RemoveAll(xss, x))|
         == |Flatten(RemoveAll(xss[..|xss| - 1], x))| + (if xss[|xss| - 1] == x then 0 else |xss[|xss| - 1]|)
  {
    RemoveAllStep(xss, x);
    if xss[|xss| - 1] != x {
      FlattenSnoc(RemoveAll(xss[..|xss| - 1], x), xss[|xss| - 1]);
    }
  }

  /** Distributivity, spelled out for the solver. */
  lemma MultiplyStep(n: nat, c: nat, d: nat)
    ensures n * (c + d) == n * c + n * d
  {
  }

  /** Appending one piece to the list appends it to the concatenation. */
  lemma FlattenSnoc<T>(xss: seq<seq<T>>, last: seq<T>)
    ensures Flatten(xss + [last]) == Flatten(xss) + last
  {
    assert (xss + [last])[..|xss|] == xss;
  }

  /** Counting copies of `x` one element at a time from the end. */
  lemma CountStep<T>(xs: seq<T>, x: T)
    requires |xs| > 0
    ensures multiset(xs)[x] == multiset(xs[..|xs| - 1])[x] + (if xs[|xs| - 1] == x then 1 else 0)
  {
    assert xs == xs[..|xs| - 1] + [xs[|xs| - 1]];
  }
}

=== FILE: text.dfy ===
/**
 The string primitives the maintenance scripts lean on, with JavaScript's
 semantics written out: `trim`, `indexOf` with a start position, `includes`,
 `substring`, and `split`/`join` on a one-character separator.
 JavaScript strings are sequences of UTF-16 code units; here a string is a
 `seq<char>`, a sequence of Unicode scalar values, which agrees with the
 code units for text inside the Basic Multilingual Plane.
 */
module Text {

  /** The code points `String.prototype.trim` strips: the ECMAScript
      WhiteSpace and LineTerminator productions. */
  predicate IsWhitespace(c: char) {
    || c == ' ' || c == '\t' || c == '\n' || c == '\r'
    || c as int == 0x0B || c as int == 0x0C
    || c as int == 0xA0 || c as int == 0x1680
    || (0x2000 <= c as int <= 0x200A)
    || c as int == 0x2028 || c as int == 0x2029
    || c as int == 0x202F || c as int == 0x205F
    || c as int == 0x3000 || c as int == 0xFEFF
  }

  predicate AllWhitespace(s: string) {
    forall i :: 0 <= i < |s| ==> IsWhitespace(s[i])
  }

  /** Strips leading whitespace: the result is the suffix left after the
      longest all-whitespace prefix. */
  function TrimStart(s: string): (r: string)
    ensures |r| <= |s| && r == s[|s| - |r|..]
    ensures AllWhitespace(s[..|s| - |r|])
    ensures r == [] || !IsWhitespace(r[0])
    decreases |s|
  {
    if |s| > 0 && IsWhitespace(s[0]) then
      var r := TrimStart(s[1..]);
      assert s[..|s| - |r|] == [s[0]] + s[1..][..|s| - 1 - |r|];
      r
    else
      s
  }

  /** Strips trailing whitespace: the result is the prefix left before the
      longest all-whitespace suffix. */
  function TrimEnd(s: string): (r: string)
    ensures |r| <= |s| && r == s[..|r|]
    ensures AllWhitespace(s[|r|..])
    ensures r == [] || !IsWhitespace(r[|r| - 1])
    decreases |s|
  {
    if |s| > 0 && IsWhitespace(s[|s| - 1]) then
      var r := TrimEnd(s[..|s| - 1]);
      assert s[|r|..] == s[..|s| - 1][|r|..] + [s[|s| - 1]];
      r
    else
      s
  }

  /** `s.trim()` */
  function Trim(s: string): string {
    TrimEnd(TrimStart(s))
  }

  /** Whatever whitespace surrounds a core that neither starts nor ends in
      whitespace, trimming gives back exactly that core. */
  lemma TrimAround(lead: string, core: string, trail: string)
    requires AllWhitespace(lead) && AllWhitespace(trail)
    requires |core| > 0 && !IsWhitespace(core[0]) && !IsWhitespace(core[|core| - 1])
    ensures Trim(lead + core + trail) == core
  {
    var s := lead + core + trail;
    var t := TrimStart(s);
    var n := |s| - |t|;
    assert s[|lead|] == core[0];
    assert n <= |lead|;
    assert n >= |lead|;
    assert t == core + trail;
    var u := TrimEnd(t);
    var m := |u|;
    assert t[|core| - 1] == core[|core| - 1];
    assert m >= |core|;
    assert m <= |core|;
  }

  /** `pat` occurs in `s` starting at index `k`. */
  predicate OccursAt(s: string, pat: string, k: int) {
    0 <= k && k + |pat| <= |s| && s[k..k + |pat|] == pat
  }

  /** `k` is the first occurrence of `pat` in `s` at or after `from`. */
  predicate FirstAt(s: string, pat: string, from: int, k: int) {
    from <= k && OccursAt(s, pat, k)
    && forall j :: from <= j < k ==> !OccursAt(s, pat, j)
  }

  /** `s.includes(pat)` */
  predicate Includes(s: string, pat: string) {
    exists k | 0 <= k <= |s| - |pat| :: OccursAt(s, pat, k)
  }

  /** `includes` is `indexOf` from the start finding something. */
  lemma IncludesIndexOf(s: string, pat: string)
    ensures Includes(s, pat) <==> IndexOf(s, pat, 0) != -1
  {
    if IndexOf(s, pat, 0) != -1 {
      var k := IndexOf(s, pat, 0);
      assert OccursAt(s, pat, k);
    }
  }

  /** Clamps a position into `[0, n]`, as `indexOf` and `substring` do with
      their integer arguments. */
  function Clamp(k: int, n: nat): (r: nat)
    ensures r <= n
    ensures 0 <= k <= n ==> r == k
  {
    if k < 0 then 0 else if k > n then n else k
  }

  /** Search forward from `k` for the first occurrence of `pat`. */
  function IndexOfFrom(s: string, pat: string, k: nat): (r: int)
    requires k <= |s|
    ensures r == -1 || FirstAt(s, pat, k, r)
    ensures r == -1 <==> forall j :: k <= j ==> !OccursAt(s, pat, j)
    decreases |s| - k
  {
    if k + |pat| > |s| then -1
    else if s[k..k + |pat|] == pat then k
    else IndexOfFrom(s, pat, k + 1)
  }

  /** `s.indexOf(pat, from)`: the search starts at `from` clamped into the
      string, and -1 means no occurrence at or after that position. */
  function IndexOf(s: string, pat: string, from: int): (r: int)
  {
    IndexOfFrom(s, pat, Clamp(from, |s|))
  }

  /** The result of `indexOf` is either -1 or the first occurrence at or
      after the clamped start, and it is -1 exactly when there is none. */
  lemma IndexOfSpec(s: string, pat: string, from: int, k: int)
    requires 0 <= from <= |s|
    ensures IndexOf(s, pat, from) == -1 <==> forall j :: from <= j ==> !OccursAt(s, pat, j)
    ensures FirstAt(s, pat, from, k) ==> IndexOf(s, pat, from) == k
  {
    if FirstAt(s, pat, from, k) {
      assert OccursAt(s, pat, k);
    }
  }

  /** `s.substring(a, b)`: both ends clamped, then swapped if out of order. */
  function Substring(s: string, a: int, b: int): string
  {
    var x := Clamp(a, |s|);
    var y := Clamp(b, |s|);
    if x <= y then s[x..y] else s[y..x]
  }

  /** `s.substring(a)` */
  function SubstringFrom(s: string, a: int): (r: string)
    ensures r == s[Clamp(a, |s|)..]
  {
    Substring(s, a, |s|)
  }

  /** `s.split(sep)` for a one-character separator: the pieces between
      separators, with an empty piece at each end where `s` starts or ends
      with `sep`. */
  function Split(s: string, sep: char): (r: seq<string>)
    ensures |r| == multiset(s)[sep] + 1
    ensures forall piece :: piece in r ==> sep !in piece
    decreases |s|
  {
    if |s| == 0 then [""]
    else
      var rest := Split(s[1..], sep);
      assert s == [s[0]] + s[1..];
      if s[0] == sep then [""] + rest
      else [[s[0]] + rest[0]] + rest[1..]
  }

  /** `ls.join(sep)` */
  function Join(ls: seq<string>, sep: char): string
    decreases |ls|
  {
    if |ls| == 0 then ""
    else if |ls| == 1 then ls[0]
    else ls[0] + [sep] + Join(ls[1..], sep)
  }

  /** Joining the pieces of a split gives back the original string. */
  lemma {:induction false} JoinSplit(s: string, sep: char)
    ensures Join(Split(s, sep), sep) == s
    decreases |s|
  {
    if |s| > 0 {
      var rest := Split(s[1..], sep);
      JoinSplit(s[1..], sep);
      if s[0] == sep {
        SplitAtSeparator(s, sep);
        JoinCons("", rest, sep);
      } else {
        SplitAtOther(s, sep);
        JoinExtendFirst(s[0], rest, sep);
      }
      assert [s[0]] + s[1..] == s;
    }
  }

  /** A leading separator splits off an empty first piece. */
  lemma SplitAtSeparator(s: string, sep: char)
    requires |s| > 0 && s[0] == sep
    ensures Split(s, sep) == [""] + Split(s[1..], sep)
  {
  }

  /** A leading non-separator joins the first piece of the rest. */
  lemma SplitAtOther(s: string, sep: char)
    requires |s| > 0 && s[0] != sep
    ensures Split(s, sep) == [[s[0]] + Split(s[1..], sep)[0]] + Split(s[1..], sep)[1..]
  {
  }

  /** Prefixing the first piece with a character prefixes the join with it. */
  lemma JoinExtendFirst(c: char, ls: seq<string>, sep: char)
    requires |ls| >= 1
    ensures Join([[c] + ls[0]] + ls[1..], sep) == [c] + Join(ls, sep)
  {
    var ms := [[c] + ls[0]] + ls[1..];
    assert ms[1..] == ls[1..];
    if |ls| > 1 {
      assert Join(ms, sep) == ([c] + ls[0]) + [sep] + Join(ls[1..], sep);
    }
  }

  /** Joining one more piece in front adds it and one separator. */
  lemma JoinCons(a: string, ls: seq<string>, sep: char)
    requires |ls| >= 1
    ensures Join([a] + ls, sep) == a + [sep] + Join(ls, sep)
  {
    assert ([a] + ls)[1..] == ls;
  }

  /** Splitting the join of separator-free pieces gives back the pieces.
      Splitting `""` gives `[""]`, so there must be at least one piece. */
  lemma {:induction false} SplitJoin(ls: seq<string>, sep: char)
    requires |ls| >= 1
    requires forall piece :: piece in ls ==> sep !in piece
    ensures Split(Join(ls, sep), sep) == ls
    decreases |ls|
  {
    if |ls| == 1 {
      SplitNoSeparator(ls[0], sep);
    } else {
      SplitJoin(ls[1..], sep);
      SplitAfterPiece(ls[0], sep, Join(ls[1..], sep));
      assert [ls[0]] + ls[1..] == ls;
    }
  }

  /** A string without the separator splits into itself. */
  lemma {:induction false} SplitNoSeparator(a: string, sep: char)
    requires sep !in a
    ensures Split(a, sep) == [a]
    decreases |a|
  {
    if |a| > 0 {
      SplitNoSeparator(a[1..], sep);
      assert a == [a[0]] + a[1..];
    }
  }

  /** A separator-free piece followed by the separator splits off as one
      piece. */
  lemma {:induction false} SplitAfterPiece(a: string, sep: char, b: string)
    requires sep !in a
    ensures Split(a + [sep] + b, sep) == [a] + Split(b, sep)
    decreases |a|
  {
    var s := a + [sep] + b;
    if |a| == 0 {
      assert s[1..] == b;
    } else {
      assert s[1..] == a[1..] + [sep] + b;
      SplitAfterPiece(a[1..], sep, b);
      assert [a[0]] + a[1..] == a;
    }
  }

  /** The pieces of a split never contain the separator, so a split string
      is always a valid argument for `SplitJoin`. */
  lemma SplitPiecesAreClean(s: string, sep: char)
    ensures |Split(s, sep)| >= 1
    ensures forall piece :: piece in Split(s, sep) ==> sep !in piece
  {
  }
}
